=== FILE: README.md ===
# ClassManager backend, modelled in Dafny

ClassManager is a small class-management backend (Express over SQLite). Teachers
register, create classes and enrol students in them. Students register and see
the classes they are enrolled in. This project models its core:

- The schema and the store (`server/config/db.js`). The module `Database` has one
  datatype per table row and a `Tables` snapshot. Its `Store` class holds the four
  tables, updated in place, plus the AUTOINCREMENT counters. `Store.Valid()` carries
  the constraints SQLite enforces: the CHECK on `role`, UNIQUE `username`, UNIQUE
  `email`, UNIQUE `students.user_id`, and UNIQUE `(student_id, class_id)`. The
  last holds by construction, because enrollments form a set of pairs.
- The services (`server/services/*.js`). Inserts, updates and deletes are methods
  on the `Store`. Each resolves or rejects the way the sqlite3 promise does, and
  states the new contents of every table. Lookups and joins are functions of a
  `Tables` snapshot.
- The handlers (`server/controllers/*.js`). Each handler returns a `Status`: 200,
  201, 400, 403, 404 or 500, with the source's exact error messages. The three read
  handlers are functions. The five mutating handlers are methods whose
  precondition `caller.role == TEACHER` stands for the `isTeacher` middleware.
- Two access predicates. `MayManage` says a teacher may change a class iff the
  class exists and they own it. `MayView` says a student may read a class or its
  roster iff they have a student record enrolled in it.

Foreign keys are a flag: `Store.foreignKeys` stands for `PRAGMA foreign_keys`.
`db.js` declares the foreign keys and the ON DELETE CASCADE rules but never turns
the pragma on, so SQLite enforces neither. The running system is therefore a
`Store` built with `false`. Every service contract covers both settings. The
declared cascades are specified separately, as `DeleteClassCascade`,
`DeleteStudentCascade` and `DeleteUserCascade`.

Two facts about the code shape the model:

- `register` makes two separate inserts with no transaction
  (`server/controllers/authController.js:52-67`). When the second fails, the new
  user stays and the answer is a 500.
- The cascades are declared (`server/config/db.js:54,73,90-91`) but take effect
  only under `PRAGMA foreign_keys`, which `db.js` never sets.

Bcrypt and JWT are foreign libraries:

- `Register` receives the password hash as an argument.
- `Login` receives the hash comparison as a function `matches`.
- A token is represented by the claims it signs (`Claims(id, username, role)`).

`Scenarios` describes two request sequences on a fresh store, whose outcomes the
handlers' contracts determine.

## Model

| member | source | states |
|---|---|---|
| Database.SchemaValid | server/config/db.js:28-74 | the constraints SQLite enforces whatever the foreign-key setting: CHECK on role, UNIQUE username, UNIQUE email, UNIQUE students.user_id (UNIQUE(student_id, class_id) at db.js:92 holds because enrollments are a set) |
| Database.ReferencesResolve | server/config/db.js:52-92 | the declared foreign keys: a class's teacher, a student's linked user, and both ends of an enrollment exist |
| Database.Store.Valid | server/config/db.js:24-101 | the store invariant: SchemaValid always, ReferencesResolve when foreign keys are enforced, and every row id below its table's AUTOINCREMENT counter |
| Database.Store.constructor | server/config/db.js:24-101 | a fresh database has four empty tables and satisfies every schema constraint |
| Database.DeleteClassCascade | server/config/db.js:84-93 | deleting a class under ON DELETE CASCADE removes exactly that class and the enrollments naming it; the other rows stay, and the schema constraints and reference integrity are preserved |
| Database.DeleteStudentCascade | server/config/db.js:84-93 | deleting a student under the cascade removes exactly that student and the enrollments naming them; constraints and references are preserved |
| Database.DeleteUserCascade | server/config/db.js:47-93 | deleting a user under the cascade removes the user, the classes they teach and the student row linked to them; every other user, class and student stays; an enrollment stays iff it names neither a removed class nor a removed student; constraints and references are preserved |
| Database.DeleteUserWithoutCascadeDangles | server/config/db.js:47-55 | without enforced foreign keys, deleting a teacher who owns a class leaves a class whose teacher does not exist |
| UserService.FindUserByUsername | server/services/userService.js:8-20 | returns the one user with that username, or none when no user has it |
| UserService.FindUserByEmail | server/services/userService.js:27-39 | returns the one user with that email, or none when no user has it |
| UserService.FindUserById | server/services/userService.js:46-58 | finds a user iff the id exists, and returns it without the password |
| UserService.CreateUser | server/services/userService.js:65-82 | rejected iff the role fails the CHECK or the username or email is taken, with the store unchanged; otherwise exactly one user added under a fresh id |
| UserService.DefinedFields | server/services/userService.js:93-99 | the SET list names a column iff that field is defined, and is empty iff no field is |
| UserService.ApplyPatchSetsDefinedFields | server/services/userService.js:93-112 | an update gives each defined field the patch's value and leaves the undefined ones as they were; the empty patch changes nothing, and applying a patch twice equals applying it once |
| UserService.UpdateUser | server/services/userService.js:90-122 | no defined field resolves false with nothing changed; otherwise true iff the user exists and the new row breaks no constraint, in which case only that row changes; a constraint break rejects with the store unchanged |
| UserService.CreateStudent | server/services/userService.js:129-146 | rejected iff the user_id is already linked to a student (or, with foreign keys, names no user), with the store unchanged; otherwise one student added under a fresh id |
| UserService.FindStudentById | server/services/userService.js:153-165 | finds a student iff the id exists, and returns its row |
| UserService.FindStudentByUserId | server/controllers/classController.js:135 | returns the one student row linked to the user, or none when there is none |
| ClassService.CreateClass | server/services/classService.js:8-25 | adds exactly one class with the given name, description and teacher under a fresh id; rejected only when foreign keys are enforced and the teacher is missing |
| ClassService.UpdateClass | server/services/classService.js:33-51 | true iff the class exists; then only its name and description change, and its teacher stays |
| ClassService.DeleteClass | server/services/classService.js:58-73 | true iff the class existed; it is removed and the other classes stay; its enrollments go only when foreign keys are enforced |
| ClassService.GetClassById | server/services/classService.js:80-97 | found iff the class exists and its teacher exists (inner join), with the teacher's full name |
| ClassService.GetTeacherClasses | server/services/classService.js:104-122 | exactly the classes taught by the teacher, each with student_count equal to its number of enrollments |
| ClassService.GetAllClasses | server/services/classService.js:128-145 | exactly the classes whose teacher exists, each with teacher name and enrollment count |
| EnrollmentService.EnrollStudent | server/services/enrollmentService.js:9-23 | rejected iff the pair is already enrolled (or, with foreign keys, the student or class is missing), with the store unchanged; otherwise exactly that pair is added |
| EnrollmentService.UnenrollStudent | server/services/enrollmentService.js:32-46 | true iff the pair was enrolled; afterwards exactly that pair is gone and every other pair stays |
| EnrollmentService.UnenrollTwice | server/services/enrollmentService.js:34-45 | a second unenroll of the same pair reports false and changes nothing; after both, the only change to any table is that pair's removal |
| EnrollmentService.EnrollThenUnenroll | server/services/enrollmentService.js:9-46 | enrolling a new pair and then unenrolling it restores every table |
| EnrollmentService.GetStudentClasses | server/services/enrollmentService.js:54-71 | exactly the classes the student is enrolled in whose teacher exists, with the teacher's name |
| EnrollmentService.GetClassStudents | server/services/enrollmentService.js:79-95 | exactly the existing students enrolled in the class |
| EnrollmentService.EnrollRaisesCount | server/services/classService.js:104-121 | enrolling a new pair raises that class's student_count by one and leaves every other count alone |
| EnrollmentService.UnenrollLowersCount | server/services/classService.js:104-121 | unenrolling a present pair lowers that class's student_count by one and leaves every other count alone |
| AuthController.ValidateRegistration | server/controllers/authController.js:18-25 | "All fields are required" when any field is falsy; "Role must be either teacher or student" for any other role; passes iff all fields are given and the role is valid |
| AuthController.Split | server/controllers/authController.js:57 | `split(' ')` yields at least one piece, and no piece contains a space |
| AuthController.JoinSplit | server/controllers/authController.js:57-59 | joining the pieces of a split with spaces gives the string back |
| AuthController.SplitHasManyPieces | server/controllers/authController.js:59 | a split has more than one piece iff the string contains a space |
| AuthController.NameParts | server/controllers/authController.js:57-59 | the first name is the first piece of the split; the last name is the other pieces joined with spaces, or "" when there is one piece (its round trip is NameSplitRoundTrip) |
| AuthController.NameSplitRoundTrip | server/controllers/authController.js:57-59 | with a space in the full name, first name + " " + last name is the full name; without one, the first name is the full name and the last name is empty; the first name holds no space |
| AuthController.Register | server/controllers/authController.js:13-103 | 400 iff validation fails or the username or email is taken, with the username checked first and the store unchanged; otherwise one user added; a student row linked to the new id is added iff the role is student, in a second insert; a 500 happens iff that second insert meets a student row already linked to the new id, so never when foreign keys are enforced; the token and the returned user carry the new id, username and role |
| AuthController.Login | server/controllers/authController.js:110-163 | 400 on a missing field; success iff some user has the username and a matching hash; an unknown username and a wrong password both give "Invalid credentials"; success returns the stored user's id, username, email, full name and role |
| ClassController.MayManage | server/controllers/classController.js:56-63 | the rule for changing a class: it is found with its teacher and the caller is that teacher |
| ClassController.MayView | server/controllers/classController.js:166-179 | the rule for reading a class or its roster: a teacher must own it, a student must have a student record enrolled in it |
| ClassController.ViewDenial | server/controllers/classController.js:164-179 | the read handlers let the caller in iff MayView holds; otherwise the teacher's message, "Student record not found" or "You are not enrolled in this class" |
| ClassController.GetClassById | server/controllers/classController.js:153-187 | with the intended student lookup (see Findings): 404 "Class not found" iff the class (with its teacher) is missing; 200 iff it exists and the caller may view it, with the class joined with its teacher's name; 403 otherwise, with "You can only view your own classes", "Student record not found" or "You are not enrolled in this class" |
| ClassController.GetClassStudents | server/controllers/classController.js:194-231 | with the intended student lookup (see Findings): same 404/403/200 rule as reading the class, with the teacher's 403 saying "You can only view students in your own classes"; on 200, exactly the existing students enrolled in the class, each with its own names and email |
| ClassController.RosterSharesClassAccess | server/controllers/classController.js:201-226 | the roster answers 200, 403 or 404 exactly when reading the class does |
| ClassController.GetAllClasses | server/controllers/classController.js:123-146 | with the intended student lookup (see Findings), never an error; a teacher gets exactly their own classes, each with its row and enrollment count; a student with a record gets exactly their enrolled classes whose teacher exists, each with its row and teacher name; anyone else gets `[]` |
| ClassController.CreateClass | server/controllers/classController.js:10-37 | a falsy name answers 400 with the store unchanged; otherwise one class owned by the caller is added, its description defaulting to ""; a rejected insert answers 500 with the store unchanged |
| ClassController.UpdateClass | server/controllers/classController.js:44-82 | checks name (400), existence (404), ownership (403) in that order; changes the store iff all pass; an empty description keeps the old one and the teacher never changes |
| ClassController.DeleteClass | server/controllers/classController.js:89-116 | 404 "Class not found" for a missing class, 403 "You can only delete your own classes" for a non-owner, both with the store unchanged; the owner's delete removes the class |
| ClassController.AddStudentToClass | server/controllers/classController.js:238-276 | checks student id (400), class (404), ownership (403), student (404), then enrolls; an already-enrolled pair answers 500 with the store unchanged |
| ClassController.RemoveStudentFromClass | server/controllers/classController.js:283-316 | checks class (404), ownership (403), student (404); 200 iff the pair was enrolled, which removes only that pair; otherwise 400 "Student was not enrolled in this class" |
| ClassController.GetClassByIdAsWritten | server/controllers/classController.js:168-170 | as written, a student reading an existing class gets a 500; every other request, including a student's for a missing class (404), is answered as intended |
| ClassController.EnrolledStudentRefusedAsWritten | server/controllers/classController.js:169 | a concrete database where an enrolled student gets a 500 from the code as written and a 200 from the intended lookup |
| ClassController.GetClassStudentsAsWritten | server/controllers/classController.js:207-210 | as written, a student reading the roster of an existing class gets a 500; every other request, including a student's for a missing class (404), is answered as intended |
| ClassController.EnrolledStudentRosterRefusedAsWritten | server/controllers/classController.js:210 | on the same database, the enrolled student gets a 500 for the roster as written and the one-student roster from the intended lookup |
| ClassController.GetAllClassesAsWritten | server/controllers/classController.js:133-138 | as written, every student listing their classes gets a 500; every other caller is answered as intended |
| ClassController.EnrolledStudentListRefusedAsWritten | server/controllers/classController.js:135 | on the same database, the enrolled student gets a 500 for their class list as written and their one class from the intended lookup |
| Scenarios.DuplicateUsername | server/controllers/authController.js:28-31 | after a registration, a second one with the same username is refused with "Username already exists", and the first account still logs in |
| Scenarios.FirstClass | server/controllers/classController.js:10-37 | a newly registered teacher who creates one class sees exactly that class, with no students, in their class list |

## Left out

- Password hashing and token signing. Bcrypt's salt and hash and JWT's signature and expiry are foreign code. The hash is a parameter of `Register` and the comparison a parameter of `Login`. The `jwt.sign` callback error is not modelled.
- SQL text, the sqlite3 callbacks and the directory creation in `db.js`. These are I/O. The model represents each statement by its effect on the tables.
- The `created_at` and `enrollment_date` timestamps. These are clock reads.
- The exact AUTOINCREMENT values. The model only promises a fresh id not already in the table.
- The `class_enrollments.id` column. Enrollments are a set of (student, class) pairs, so the enrollment id that `enrollStudent` resolves and `addStudentToClass` returns carries no promise. Nothing in the source reads it back.
- Concurrency between requests. Each statement is atomic and no transactions exist.
- The order of query results. The queries have no `ORDER BY`, so the model returns sets.
- A NULL `description` column. A class without a description gets "" from the handler, and no path writes NULL.
- The parsing of path parameters such as `req.params.id`. Ids arrive as numbers.
- Request body fields of other JSON types. A body field is a string or missing, and `studentId` is a natural number or missing. So the model cannot express a non-string `fullName`, on which `split` throws after the user insert (a 500 that leaves the user behind). Nor can it express a string `studentId` such as `"0"`, which JavaScript treats as true, or a negative or fractional `studentId`; the source answers those with 404 "Student not found".
- The messages of successful answers ("Class created successfully", "Login successful" and the like) and the 500 body "Server error". A `Status` carries a message only for 400, 403 and 404.
- The Express wiring in `server.js` and `classRoutes.js`. Only the `isTeacher` gate is kept, as a precondition.
- UserService.UpdateUser: keys outside the five user columns, and fields explicitly set to `null`, are not modelled. A patch field is either a string or undefined.
- ClassController.UpdateClass and ClassController.DeleteClass: the "Failed to update class" and "Failed to delete class" answers are modelled. They cannot occur, because the class was found just before. The contracts therefore never name them.
- Database.DeleteUserCascade and Database.DeleteStudentCascade: no handler deletes a user or a student. These state the declared rules only.
- The React client in `src/`, `server/services/authService.js` and the client-side form checks. This is UI and is not part of this model.

## Findings

| source | as written | input that shows it | evidently intended | confidence | as-written member | corrected member |
|---|---|---|---|---|---|---|
| server/controllers/classController.js:169 | `getClassById`'s student branch calls `userService.findStudentByUserId`, which `server/services/userService.js` does not define; the call throws a TypeError and the catch answers 500 | a student whose record is enrolled in class 1 reads `GET /api/classes/1` | look up the student row whose `user_id` is the caller, then check the enrollment | medium, not executed | ClassController.GetClassByIdAsWritten, ClassController.EnrolledStudentRefusedAsWritten | UserService.FindStudentByUserId, ClassController.GetClassById |
| server/controllers/classController.js:210 | `getClassStudents`'s student branch makes the same undefined call and answers 500 | the same student reads `GET /api/classes/1/students` | the same lookup, then the roster | medium, not executed | ClassController.GetClassStudentsAsWritten, ClassController.EnrolledStudentRosterRefusedAsWritten | UserService.FindStudentByUserId, ClassController.GetClassStudents |
| server/controllers/classController.js:135 | `getAllClasses`'s student branch makes the same undefined call and answers 500 | the same student reads `GET /api/classes` | the same lookup, then the enrolled classes, or `[]` without a record | medium, not executed | ClassController.GetAllClassesAsWritten, ClassController.EnrolledStudentListRefusedAsWritten | UserService.FindStudentByUserId, ClassController.GetAllClasses |

=== FILE: auth_controller.dfy ===
/** The `register` and `login` handlers. Password hashing and token signing
    are foreign libraries: `register` receives the hash of the password as
    an argument, `login` receives the hash comparison as a function, and a
    token is represented by the claims it signs. */
module AuthController {
  import opened Wrappers
  import opened Database
  import opened Http
  import opened UserService

  /** The body of `POST /api/auth/register`; `None` is a missing field. */
  datatype RegisterRequest = RegisterRequest(
    username: Option<string>,
    password: Option<string>,
    email: Option<string>,
    fullName: Option<string>,
    role: Option<string>)

  /** The body of a successful registration: the new id, the role, the
      token's claims and the public view of the new user. */
  datatype Registered = Registered(userId: Id, role: string, token: Claims, user: PublicUser)

  /** The body of a successful login. */
  datatype LoggedIn = LoggedIn(token: Claims, user: PublicUser)

  predicate AllGiven(req: RegisterRequest) {
    Truthy(req.username) && Truthy(req.password) && Truthy(req.email) && Truthy(req.fullName) && Truthy(req.role)
  }

  /** The two input checks `register` makes before touching the store:
      the message of the 400 it answers with, or `None` when both pass. */
  function ValidateRegistration(req: RegisterRequest): (r: Option<string>)
    ensures r.None? <==> AllGiven(req) && IsRole(req.role.value)
    ensures !AllGiven(req) ==> r == Some("All fields are required")
    ensures AllGiven(req) && !IsRole(req.role.value) ==> r == Some("Role must be either teacher or student")
  {
    if !Truthy(req.username) || !Truthy(req.password) || !Truthy(req.email) || !Truthy(req.fullName) || !Truthy(req.role) then
      Some("All fields are required")
    else if req.role.value != TEACHER && req.role.value != STUDENT then
      Some("Role must be either teacher or student")
    else
      None
  }

  /** JavaScript's `s.split(' ')`: the pieces between single spaces, empty
      pieces included, so there is always one more piece than spaces. */
  function Split(s: string): (parts: seq<string>)
    ensures |parts| >= 1
    ensures forall i | 0 <= i < |parts| :: ' ' !in parts[i]
  {
    if |s| == 0 then [""]
    else
      var rest := Split(s[1..]);
      if s[0] == ' ' then [""] + rest
      else [[s[0]] + rest[0]] + rest[1..]
  }

  /** JavaScript's `parts.join(' ')`. */
  function Join(parts: seq<string>): string {
    if |parts| == 0 then ""
    else if |parts| == 1 then parts[0]
    else parts[0] + " " + Join(parts[1..])
  }

  /** Joining the pieces of a split puts the string back together. */
  lemma {:induction false} JoinSplit(s: string)
    ensures Join(Split(s)) == s
  {
    if |s| > 0 {
      var rest := Split(s[1..]);
      JoinSplit(s[1..]);
      if s[0] == ' ' {
        assert Split(s) == [""] + rest;
        assert ([""] + rest)[1..] == rest;
        assert Join(Split(s)) == "" + " " + Join(rest);
        assert s == [s[0]] + s[1..];
      } else if |rest| == 1 {
        assert Split(s) == [[s[0]] + rest[0]];
        assert s == [s[0]] + s[1..];
      } else {
        var head := [s[0]] + rest[0];
        assert Split(s) == [head] + rest[1..];
        assert ([head] + rest[1..])[1..] == rest[1..];
        assert Join(rest) == rest[0] + " " + Join(rest[1..]);
        assert s == [s[0]] + s[1..];
      }
    }
  }

  /** A split yields more than one piece exactly when the string has a space. */
  lemma {:induction false} SplitHasManyPieces(s: string)
    ensures |Split(s)| > 1 <==> ' ' in s
  {
    if |s| > 0 {
      SplitHasManyPieces(s[1..]);
      assert s == [s[0]] + s[1..];
      assert ' ' in s <==> s[0] == ' ' || ' ' in s[1..];
    }
  }

  /** `register`'s split of the full name: the first piece, and the other
      pieces joined back with spaces (empty when there is one piece). */
  function NameParts(fullName: string): (r: (string, string)) {
    var parts := Split(fullName);
    (parts[0], if |parts| > 1 then Join(parts[1..]) else "")
  }

  /** The name split loses nothing: with a space in the full name, first
      name, a space and last name give the full name back; without one, the
      first name is the whole name and the last name is empty. The first
      name never holds a space. */
  lemma NameSplitRoundTrip(fullName: string)
    ensures ' ' !in NameParts(fullName).0
    ensures ' ' in fullName ==> NameParts(fullName).0 + " " + NameParts(fullName).1 == fullName
    ensures ' ' !in fullName ==> NameParts(fullName) == (fullName, "")
  {
    var parts := Split(fullName);
    JoinSplit(fullName);
    SplitHasManyPieces(fullName);
    if |parts| > 1 {
      assert Join(parts) == parts[0] + " " + Join(parts[1..]);
    }
  }

  /** The row `register` inserts: the hash stands in for the password. */
  function NewUser(req: RegisterRequest, hashed: string): User
    requires AllGiven(req)
  {
    User(req.username.value, hashed, req.email.value, req.fullName.value, req.role.value)
  }

  /** `after` is `before` with one more row, `v`, under an id `before` lacks. */
  ghost predicate AddsOne<V>(before: map<Id, V>, after: map<Id, V>, v: V) {
    && before.Keys < after.Keys
    && (forall k | k in before :: after[k] == before[k])
    && (forall k | k in after && k !in before :: after[k] == v)
  }

  /** `register`: validation, then the username and then the email
      uniqueness checks, each answering 400 with the store untouched; then
      the user insert and, for a student, a separate student insert linked
      to the new user. The two inserts are not one transaction: when the
      second is rejected the new user stays and the caller gets a 500. */
  method Register(db: Store, req: RegisterRequest, hashed: string) returns (r: Status<Registered>)
    requires db.Valid()
    modifies db
    ensures db.Valid()
    ensures r.BadRequest? || r.Created? || r.ServerError?
    ensures r.BadRequest? <==>
      || ValidateRegistration(req).Some?
      || UsernameTaken(old(db.users), req.username.value)
      || EmailTaken(old(db.users), req.email.value)
    ensures r.BadRequest? ==> unchanged(db)
    ensures ValidateRegistration(req).Some? ==> r == BadRequest(ValidateRegistration(req).value)
    ensures ValidateRegistration(req).None? && UsernameTaken(old(db.users), req.username.value) ==>
      r == BadRequest("Username already exists")
    ensures ValidateRegistration(req).None? && !UsernameTaken(old(db.users), req.username.value) && EmailTaken(old(db.users), req.email.value) ==>
      r == BadRequest("Email already exists")
    ensures !r.BadRequest? ==> AllGiven(req) && AddsOne(old(db.users), db.users, NewUser(req, hashed))
    ensures r.Created? ==>
      && r.body.userId !in old(db.users) && db.users == old(db.users)[r.body.userId := NewUser(req, hashed)]
      && r.body.role == req.role.value
      && r.body.token == Claims(r.body.userId, req.username.value, req.role.value)
      && r.body.user == PublicUser(r.body.userId, req.username.value, req.email.value, req.fullName.value, req.role.value)
    ensures r.Created? && req.role.value == STUDENT ==>
      AddsOne(old(db.students), db.students,
        StudentRow(NameParts(req.fullName.value).0, NameParts(req.fullName.value).1, req.email.value, Some(r.body.userId)))
    ensures r.Created? && req.role.value == TEACHER ==> db.students == old(db.students)
    ensures r.ServerError? ==> req.role.value == STUDENT && db.students == old(db.students)
    ensures r.ServerError? <==>
      && !r.BadRequest? && req.role.value == STUDENT
      && exists id | id in db.users && id !in old(db.users) :: UserLinked(old(db.students), id)
    ensures db.foreignKeys && !r.BadRequest? ==> r.Created?
    ensures db.classes == old(db.classes) && db.enrollments == old(db.enrollments)
  {
    var invalid := ValidateRegistration(req);
    if invalid.Some? {
      return BadRequest(invalid.value);
    }
    var username, email, fullName, role := req.username.value, req.email.value, req.fullName.value, req.role.value;
    if FindUserByUsername(db.Snapshot(), username).Some? {
      return BadRequest("Username already exists");
    }
    if FindUserByEmail(db.Snapshot(), email).Some? {
      return BadRequest("Email already exists");
    }
    var created := CreateUser(db, NewUser(req, hashed));
    if created.Rejected? {
      return ServerError;
    }
    var userId := created.value;
    if role == STUDENT {
      var (firstName, lastName) := NameParts(fullName);
      var student := CreateStudent(db, StudentRow(firstName, lastName, email, Some(userId)));
      if student.Rejected? {
        return ServerError;
      }
    }
    r := Created(Registered(userId, role, Claims(userId, username, role), PublicUser(userId, username, email, fullName, role)));
  }

  /** Some user has this username and a password hash that `matches` accepts. */
  predicate CredentialsMatch(t: Tables, username: string, password: string, matches: (string, string) -> bool) {
    exists id :: id in t.users && t.users[id].username == username && matches(password, t.users[id].password)
  }

  /** `login`: missing fields answer 400; an unknown username and a wrong
      password give the same "Invalid credentials" answer; otherwise the
      token's claims and the stored user's public fields. `matches` is the
      hash comparison. */
  function Login(t: Tables, username: Option<string>, password: Option<string>, matches: (string, string) -> bool): (r: Status<LoggedIn>)
    requires SchemaValid(t)
    ensures r.Ok? || r.BadRequest?
    ensures !Truthy(username) || !Truthy(password) ==> r == BadRequest("Username and password are required")
    ensures Truthy(username) && Truthy(password) ==>
      (r.Ok? <==> CredentialsMatch(t, username.value, password.value, matches))
    ensures Truthy(username) && Truthy(password) && !r.Ok? ==> r == BadRequest("Invalid credentials")
    ensures r.Ok? ==> Truthy(username) && forall id | id in t.users && t.users[id].username == username.value ::
      r.body == LoggedIn(Claims(id, t.users[id].username, t.users[id].role), Public(id, t.users[id]))
  {
    if !Truthy(username) || !Truthy(password) then
      BadRequest("Username and password are required")
    else
      var found := FindUserByUsername(t, username.value);
      if found.None? then
        BadRequest("Invalid credentials")
      else
        var user := t.users[found.value];
        if !matches(password.value, user.password) then
          BadRequest("Invalid credentials")
        else
          Ok(LoggedIn(Claims(found.value, user.username, user.role), Public(found.value, user)))
  }
}

=== FILE: class_controller.dfy ===
/** The class handlers behind `/api/classes`. Each is a fixed chain of
    early returns (validation, existence, ownership or enrollment) ending in
    one store mutation or query. The five mutating handlers sit behind the
    `isTeacher` middleware, which is their `caller.role == TEACHER`
    precondition; the three read handlers are functions of the tables. */
module ClassController {
  import opened Wrappers
  import opened Database
  import opened Http
  import opened UserService
  import ClassService
  import EnrollmentService

  /** The caller is the teacher of class `id`. */
  predicate Owns(t: Tables, caller: Claims, id: Id)
    requires id in t.classes
  {
    t.classes[id].teacherId == caller.id
  }

  /** The rule for the mutating handlers: the class is found (with its
      teacher) and the caller owns it. */
  predicate MayManage(t: Tables, caller: Claims, id: Id) {
    ClassService.GetClassById(t, id).Some? && Owns(t, caller, id)
  }

  /** User `userId` has a student row that is enrolled in class `classId`. */
  predicate EnrolledIn(t: Tables, userId: Id, classId: Id) {
    exists s :: s in t.students && t.students[s].userId == Some(userId) && Enrollment(s, classId) in t.enrollments
  }

  /** The rule for reading a class and its roster: a teacher must own it, a
      student must be enrolled in it. No other role reaches the store, since
      every token carries the role of a stored user. */
  predicate MayView(t: Tables, caller: Claims, id: Id)
    requires id in t.classes
  {
    if caller.role == TEACHER then Owns(t, caller, id)
    else if caller.role == STUDENT then EnrolledIn(t, caller.id, id)
    else true
  }

  /** The access checks `getClassById` and `getClassStudents` both make on a
      class that was found: the 403 message, or `None` to let the caller in.
      The student check goes through the student's class list. */
  function ViewDenial(t: Tables, caller: Claims, id: Id, teacherMessage: string): (r: Option<string>)
    requires SchemaValid(t)
    requires ClassService.GetClassById(t, id).Some?
    ensures r.None? <==> MayView(t, caller, id)
    ensures caller.role == TEACHER && !Owns(t, caller, id) ==> r == Some(teacherMessage)
    ensures caller.role == STUDENT && !UserLinked(t.students, caller.id) ==> r == Some("Student record not found")
    ensures caller.role == STUDENT && UserLinked(t.students, caller.id) && !EnrolledIn(t, caller.id, id) ==>
      r == Some("You are not enrolled in this class")
  {
    if caller.role == TEACHER && t.classes[id].teacherId != caller.id then
      Some(teacherMessage)
    else if caller.role == STUDENT then
      var student := FindStudentByUserId(t, caller.id);
      if student.None? then
        Some("Student record not found")
      else if !(exists c | c in EnrollmentService.GetStudentClasses(t, student.value) :: c.id == id) then
        Some("You are not enrolled in this class")
      else
        None
    else
      None
  }

  /** `GET /api/classes/:id`. */
  function GetClassById(t: Tables, caller: Claims, id: Id): (r: Status<ClassService.ClassWithTeacher>)
    requires SchemaValid(t)
    ensures r.Ok? || r.NotFound? || r.Forbidden?
    ensures r.NotFound? <==> ClassService.GetClassById(t, id).None?
    ensures r.Ok? <==> ClassService.GetClassById(t, id).Some? && MayView(t, caller, id)
    ensures r.NotFound? ==> r == NotFound("Class not found")
    ensures r.Ok? ==> Some(r.body) == ClassService.GetClassById(t, id)
    ensures ClassService.GetClassById(t, id).Some? && caller.role == TEACHER && !Owns(t, caller, id) ==>
      r == Forbidden("You can only view your own classes")
    ensures ClassService.GetClassById(t, id).Some? && caller.role == STUDENT && !UserLinked(t.students, caller.id) ==>
      r == Forbidden("Student record not found")
    ensures ClassService.GetClassById(t, id).Some? && caller.role == STUDENT && UserLinked(t.students, caller.id) && !EnrolledIn(t, caller.id, id) ==>
      r == Forbidden("You are not enrolled in this class")
  {
    var found := ClassService.GetClassById(t, id);
    if found.None? then
      NotFound("Class not found")
    else
      var denial := ViewDenial(t, caller, id, "You can only view your own classes");
      if denial.Some? then Forbidden(denial.value) else Ok(found.value)
  }

  /** `GET /api/classes/:id/students`. */
  function GetClassStudents(t: Tables, caller: Claims, id: Id): (r: Status<set<EnrollmentService.StudentView>>)
    requires SchemaValid(t)
    ensures r.Ok? || r.NotFound? || r.Forbidden?
    ensures r.NotFound? <==> ClassService.GetClassById(t, id).None?
    ensures r.Ok? <==> ClassService.GetClassById(t, id).Some? && MayView(t, caller, id)
    ensures ClassService.GetClassById(t, id).Some? && caller.role == TEACHER && !Owns(t, caller, id) ==>
      r == Forbidden("You can only view students in your own classes")
    ensures r.NotFound? ==> r == NotFound("Class not found")
    ensures ClassService.GetClassById(t, id).Some? && caller.role == STUDENT && !UserLinked(t.students, caller.id) ==>
      r == Forbidden("Student record not found")
    ensures ClassService.GetClassById(t, id).Some? && caller.role == STUDENT && UserLinked(t.students, caller.id) && !EnrolledIn(t, caller.id, id) ==>
      r == Forbidden("You are not enrolled in this class")
    ensures r.Ok? ==> forall v | v in r.body ::
      && Enrollment(v.id, id) in t.enrollments && v.id in t.students
      && v == EnrollmentService.StudentView(v.id, t.students[v.id].firstName, t.students[v.id].lastName, t.students[v.id].email)
    ensures r.Ok? ==> forall s | Enrollment(s, id) in t.enrollments && s in t.students ::
      EnrollmentService.StudentView(s, t.students[s].firstName, t.students[s].lastName, t.students[s].email) in r.body
  {
    var found := ClassService.GetClassById(t, id);
    if found.None? then
      NotFound("Class not found")
    else
      var denial := ViewDenial(t, caller, id, "You can only view students in your own classes");
      if denial.Some? then Forbidden(denial.value) else Ok(EnrollmentService.GetClassStudents(t, id))
  }

  /** The roster is guarded by exactly the rule that guards the class itself. */
  lemma RosterSharesClassAccess(t: Tables, caller: Claims, id: Id)
    requires SchemaValid(t)
    ensures GetClassStudents(t, caller, id).Ok? <==> GetClassById(t, caller, id).Ok?
    ensures GetClassStudents(t, caller, id).NotFound? <==> GetClassById(t, caller, id).NotFound?
    ensures GetClassStudents(t, caller, id).Forbidden? <==> GetClassById(t, caller, id).Forbidden?
  {
  }

  /** What `GET /api/classes` lists: a teacher's own classes with counts, a
      student's enrolled classes with teacher names, or `[]`. */
  datatype ClassList =
    | Owned(owned: set<ClassService.ClassWithCount>)
    | Enrolled(enrolled: set<ClassService.ClassWithTeacher>)
    | NoClasses

  /** `GET /api/classes`: never an error. */
  function GetAllClasses(t: Tables, caller: Claims): (r: Status<ClassList>)
    requires SchemaValid(t)
    ensures r.Ok?
    ensures caller.role == TEACHER ==> r.body.Owned?
    ensures r.body.Owned? ==> forall v | v in r.body.owned ::
      && v.id in t.classes && Owns(t, caller, v.id)
      && v.row == t.classes[v.id] && v.studentCount == ClassService.EnrollmentCount(t, v.id)
    ensures r.body.Owned? ==> forall c | c in t.classes && Owns(t, caller, c) ::
      ClassService.ClassWithCount(c, t.classes[c], ClassService.EnrollmentCount(t, c)) in r.body.owned
    ensures caller.role == STUDENT && UserLinked(t.students, caller.id) ==> r.body.Enrolled?
    ensures r.body.Enrolled? ==> forall v | v in r.body.enrolled ::
      && v.id in t.classes && t.classes[v.id].teacherId in t.users && EnrolledIn(t, caller.id, v.id)
      && v.row == t.classes[v.id] && v.teacherName == t.users[t.classes[v.id].teacherId].fullName
    ensures r.body.Enrolled? ==> forall c | EnrolledIn(t, caller.id, c) && c in t.classes && t.classes[c].teacherId in t.users ::
      ClassService.ClassWithTeacher(c, t.classes[c], t.users[t.classes[c].teacherId].fullName) in r.body.enrolled
    ensures caller.role != TEACHER && !(caller.role == STUDENT && UserLinked(t.students, caller.id)) ==> r.body == NoClasses
  {
    if caller.role == TEACHER then
      Ok(Owned(ClassService.GetTeacherClasses(t, caller.id)))
    else if caller.role == STUDENT then
      var student := FindStudentByUserId(t, caller.id);
      if student.Some? then
        var rows := EnrollmentService.GetStudentClasses(t, student.value);
        assert forall c | EnrolledIn(t, caller.id, c) :: Enrollment(student.value, c) in t.enrollments;
        Ok(Enrolled(rows))
      else
        Ok(NoClasses)
    else
      Ok(NoClasses)
  }

  /** `POST /api/classes`: a name is required; the description defaults to
      the empty string and the caller becomes the teacher. */
  method CreateClass(db: Store, caller: Claims, name: Option<string>, description: Option<string>) returns (r: Status<Id>)
    requires db.Valid()
    requires caller.role == TEACHER
    modifies db
    ensures db.Valid()
    ensures r.BadRequest? || r.Created? || r.ServerError?
    ensures !Truthy(name) ==> r == BadRequest("Class name is required")
    ensures Truthy(name) ==> (r.Created? <==> !(db.foreignKeys && caller.id !in old(db.users)))
    ensures Truthy(name) && !r.Created? ==> r == ServerError
    ensures r.Created? ==>
      && r.body !in old(db.classes)
      && db.classes == old(db.classes)[r.body := ClassRow(name.value, OrElse(description, ""), caller.id)]
    ensures !r.Created? ==> unchanged(db)
    ensures db.users == old(db.users) && db.students == old(db.students) && db.enrollments == old(db.enrollments)
  {
    if !Truthy(name) {
      return BadRequest("Class name is required");
    }
    var created := ClassService.CreateClass(db, ClassRow(name.value, OrElse(description, ""), caller.id));
    if created.Rejected? {
      return ServerError;
    }
    r := Created(created.value);
  }

  /** `PUT /api/classes/:id`: name present (400), class found (404), caller
      owns it (403); only then are name and description overwritten, an
      empty description keeping the old one and the teacher never changing. */
  method UpdateClass(db: Store, caller: Claims, id: Id, name: Option<string>, description: Option<string>) returns (r: Status<()>)
    requires db.Valid()
    requires caller.role == TEACHER
    modifies db
    ensures db.Valid()
    ensures r.Ok? || r.BadRequest? || r.NotFound? || r.Forbidden?
    ensures !Truthy(name) ==> r == BadRequest("Class name is required")
    ensures Truthy(name) && ClassService.GetClassById(old(db.Snapshot()), id).None? ==> r == NotFound("Class not found")
    ensures Truthy(name) && ClassService.GetClassById(old(db.Snapshot()), id).Some? && !Owns(old(db.Snapshot()), caller, id) ==>
      r == Forbidden("You can only update your own classes")
    ensures r.Ok? <==> Truthy(name) && MayManage(old(db.Snapshot()), caller, id)
    ensures r.Ok? ==>
      db.classes == old(db.classes)[id := ClassRow(name.value, OrElse(description, old(db.classes)[id].description), old(db.classes)[id].teacherId)]
    ensures !r.Ok? ==> unchanged(db)
    ensures db.users == old(db.users) && db.students == old(db.students) && db.enrollments == old(db.enrollments)
  {
    if !Truthy(name) {
      return BadRequest("Class name is required");
    }
    var found := ClassService.GetClassById(db.Snapshot(), id);
    if found.None? {
      return NotFound("Class not found");
    }
    if found.value.row.teacherId != caller.id {
      return Forbidden("You can only update your own classes");
    }
    var updated := ClassService.UpdateClass(db, id, name.value, OrElse(description, found.value.row.description));
    if updated {
      r := Ok(());
    } else {
      r := BadRequest("Failed to update class");
    }
  }

  /** `DELETE /api/classes/:id`: class found (404), caller owns it (403),
      then the delete, which cascades to enrollments only when foreign keys
      are enforced. */
  method DeleteClass(db: Store, caller: Claims, id: Id) returns (r: Status<()>)
    requires db.Valid()
    requires caller.role == TEACHER
    modifies db
    ensures db.Valid()
    ensures r.Ok? || r.NotFound? || r.Forbidden?
    ensures r.NotFound? <==> ClassService.GetClassById(old(db.Snapshot()), id).None?
    ensures r.NotFound? ==> r == NotFound("Class not found")
    ensures r.Forbidden? ==> r == Forbidden("You can only delete your own classes")
    ensures r.Ok? <==> MayManage(old(db.Snapshot()), caller, id)
    ensures r.Ok? && db.foreignKeys ==> db.Snapshot() == DeleteClassCascade(old(db.Snapshot()), id)
    ensures r.Ok? && !db.foreignKeys ==> db.Snapshot() == old(db.Snapshot()).(classes := old(db.classes) - {id})
    ensures !r.Ok? ==> unchanged(db)
  {
    var found := ClassService.GetClassById(db.Snapshot(), id);
    if found.None? {
      return NotFound("Class not found");
    }
    if found.value.row.teacherId != caller.id {
      return Forbidden("You can only delete your own classes");
    }
    var deleted := ClassService.DeleteClass(db, id);
    if deleted {
      r := Ok(());
    } else {
      r := BadRequest("Failed to delete class");
    }
  }

  /** A body `studentId` JavaScript treats as true: present and not 0. */
  predicate GivenId(studentId: Option<Id>) {
    studentId.Some? && studentId.value != 0
  }

  /** `POST /api/classes/:id/students`: student id present (400), class
      found (404), caller owns it (403), student exists (404), then the
      enrollment; a pair already enrolled is rejected by the store and
      surfaces as a 500. */
  method AddStudentToClass(db: Store, caller: Claims, classId: Id, studentId: Option<Id>) returns (r: Status<Id>)
    requires db.Valid()
    requires caller.role == TEACHER
    modifies db
    ensures db.Valid()
    ensures r.Created? || r.BadRequest? || r.NotFound? || r.Forbidden? || r.ServerError?
    ensures !GivenId(studentId) ==> r == BadRequest("Student ID is required")
    ensures GivenId(studentId) && ClassService.GetClassById(old(db.Snapshot()), classId).None? ==> r == NotFound("Class not found")
    ensures GivenId(studentId) && ClassService.GetClassById(old(db.Snapshot()), classId).Some? && !Owns(old(db.Snapshot()), caller, classId) ==>
      r == Forbidden("You can only add students to your own classes")
    ensures GivenId(studentId) && MayManage(old(db.Snapshot()), caller, classId) && studentId.value !in old(db.students) ==>
      r == NotFound("Student not found")
    ensures r.Created? <==>
      && GivenId(studentId) && MayManage(old(db.Snapshot()), caller, classId) && studentId.value in old(db.students)
      && Enrollment(studentId.value, classId) !in old(db.enrollments)
    ensures r.ServerError? <==>
      && GivenId(studentId) && MayManage(old(db.Snapshot()), caller, classId) && studentId.value in old(db.students)
      && Enrollment(studentId.value, classId) in old(db.enrollments)
    ensures r.Created? ==> db.enrollments == old(db.enrollments) + {Enrollment(studentId.value, classId)}
    ensures !r.Created? ==> unchanged(db)
    ensures db.users == old(db.users) && db.classes == old(db.classes) && db.students == old(db.students)
  {
    if !GivenId(studentId) {
      return BadRequest("Student ID is required");
    }
    var found := ClassService.GetClassById(db.Snapshot(), classId);
    if found.None? {
      return NotFound("Class not found");
    }
    if found.value.row.teacherId != caller.id {
      return Forbidden("You can only add students to your own classes");
    }
    if FindStudentById(db.Snapshot(), studentId.value).None? {
      return NotFound("Student not found");
    }
    var enrolled := EnrollmentService.EnrollStudent(db, studentId.value, classId);
    if enrolled.Rejected? {
      return ServerError;
    }
    r := Created(enrolled.value);
  }

  /** `DELETE /api/classes/:classId/students/:studentId`: class found (404),
      caller owns it (403), student exists (404), then the unenroll; a pair
      that was not enrolled answers 400. */
  method RemoveStudentFromClass(db: Store, caller: Claims, classId: Id, studentId: Id) returns (r: Status<()>)
    requires db.Valid()
    requires caller.role == TEACHER
    modifies db
    ensures db.Valid()
    ensures r.Ok? || r.BadRequest? || r.NotFound? || r.Forbidden?
    ensures ClassService.GetClassById(old(db.Snapshot()), classId).None? ==> r == NotFound("Class not found")
    ensures ClassService.GetClassById(old(db.Snapshot()), classId).Some? && !Owns(old(db.Snapshot()), caller, classId) ==>
      r == Forbidden("You can only remove students from your own classes")
    ensures MayManage(old(db.Snapshot()), caller, classId) && studentId !in old(db.students) ==> r == NotFound("Student not found")
    ensures MayManage(old(db.Snapshot()), caller, classId) && studentId in old(db.students) && Enrollment(studentId, classId) !in old(db.enrollments) ==>
      r == BadRequest("Student was not enrolled in this class")
    ensures r.Ok? <==>
      && MayManage(old(db.Snapshot()), caller, classId) && studentId in old(db.students)
      && Enrollment(studentId, classId) in old(db.enrollments)
    ensures r.Ok? ==> db.enrollments == old(db.enrollments) - {Enrollment(studentId, classId)}
    ensures !r.Ok? ==> unchanged(db)
    ensures db.users == old(db.users) && db.classes == old(db.classes) && db.students == old(db.students)
  {
    var found := ClassService.GetClassById(db.Snapshot(), classId);
    if found.None? {
      return NotFound("Class not found");
    }
    if found.value.row.teacherId != caller.id {
      return Forbidden("You can only remove students from your own classes");
    }
    if FindStudentById(db.Snapshot(), studentId).None? {
      return NotFound("Student not found");
    }
    var removed := EnrollmentService.UnenrollStudent(db, studentId, classId);
    if removed {
      r := Ok(());
    } else {
      r := BadRequest("Student was not enrolled in this class");
    }
  }

  /** `GET /api/classes/:id` as the source has it: `userService` exports no
      `findStudentByUserId`, so the student branch calls `undefined`, throws
      a TypeError, and the catch block answers 500. Teachers are unaffected. */
  function GetClassByIdAsWritten(t: Tables, caller: Claims, id: Id): (r: Status<ClassService.ClassWithTeacher>)
    requires SchemaValid(t)
    ensures caller.role == STUDENT && ClassService.GetClassById(t, id).Some? ==> r == ServerError
    ensures !(caller.role == STUDENT && ClassService.GetClassById(t, id).Some?) ==> r == GetClassById(t, caller, id)
  {
    var found := ClassService.GetClassById(t, id);
    if found.None? then
      NotFound("Class not found")
    else if caller.role == TEACHER && found.value.row.teacherId != caller.id then
      Forbidden("You can only view your own classes")
    else if caller.role == STUDENT then
      ServerError
    else
      Ok(found.value)
  }

  /** `GET /api/classes/:id/students` as the source has it: the student
      branch makes the same undefined call and answers 500. */
  function GetClassStudentsAsWritten(t: Tables, caller: Claims, id: Id): (r: Status<set<EnrollmentService.StudentView>>)
    requires SchemaValid(t)
    ensures caller.role == STUDENT && ClassService.GetClassById(t, id).Some? ==> r == ServerError
    ensures !(caller.role == STUDENT && ClassService.GetClassById(t, id).Some?) ==> r == GetClassStudents(t, caller, id)
  {
    var found := ClassService.GetClassById(t, id);
    if found.None? then
      NotFound("Class not found")
    else if caller.role == TEACHER && found.value.row.teacherId != caller.id then
      Forbidden("You can only view students in your own classes")
    else if caller.role == STUDENT then
      ServerError
    else
      Ok(EnrollmentService.GetClassStudents(t, id))
  }

  /** `GET /api/classes` as the source has it: every student request makes
      the undefined call and answers 500, record or no record. */
  function GetAllClassesAsWritten(t: Tables, caller: Claims): (r: Status<ClassList>)
    requires SchemaValid(t)
    ensures caller.role == STUDENT ==> r == ServerError
    ensures caller.role != STUDENT ==> r == GetAllClasses(t, caller)
  {
    if caller.role == TEACHER then
      Ok(Owned(ClassService.GetTeacherClasses(t, caller.id)))
    else if caller.role == STUDENT then
      ServerError
    else
      Ok(NoClasses)
  }

  /** A teacher (user 1) owning class 1 and a student (user 2, student row 1)
      enrolled in it. */
  function EnrolledStudentExample(): Tables {
    Tables(
      map[1 := User("tina", "hash-1", "tina@example.org", "Tina Teach", TEACHER),
          2 := User("sam", "hash-2", "sam@example.org", "Sam Study", STUDENT)],
      map[1 := ClassRow("Algebra", "", 1)],
      map[1 := StudentRow("Sam", "Study", "sam@example.org", Some(2))],
      {Enrollment(1, 1)})
  }

  /** The enrolled student of the example is refused with a 500 by the code
      as written, and let in by the intended lookup. */
  lemma EnrolledStudentRefusedAsWritten()
    ensures SchemaValid(EnrolledStudentExample())
    ensures GetClassByIdAsWritten(EnrolledStudentExample(), Claims(2, "sam", STUDENT), 1) == ServerError
    ensures GetClassById(EnrolledStudentExample(), Claims(2, "sam", STUDENT), 1).Ok?
  {
    var t := EnrolledStudentExample();
    assert EnrolledIn(t, 2, 1) by {
      assert 1 in t.students && t.students[1].userId == Some(2) && Enrollment(1, 1) in t.enrollments;
    }
  }

  /** The enrolled student of the example gets a 500 for the roster from the
      code as written, and the one-student roster from the intended lookup. */
  lemma EnrolledStudentRosterRefusedAsWritten()
    ensures SchemaValid(EnrolledStudentExample())
    ensures GetClassStudentsAsWritten(EnrolledStudentExample(), Claims(2, "sam", STUDENT), 1) == ServerError
    ensures GetClassStudents(EnrolledStudentExample(), Claims(2, "sam", STUDENT), 1)
      == Ok({EnrollmentService.StudentView(1, "Sam", "Study", "sam@example.org")})
  {
    var t := EnrolledStudentExample();
    assert EnrolledIn(t, 2, 1) by {
      assert 1 in t.students && t.students[1].userId == Some(2) && Enrollment(1, 1) in t.enrollments;
    }
    var r := GetClassStudents(t, Claims(2, "sam", STUDENT), 1);
    assert r.Ok?;
    var v := EnrollmentService.StudentView(1, "Sam", "Study", "sam@example.org");
    assert v in r.body;
    assert forall w | w in r.body :: w == v;
    assert r.body == {v};
  }

  /** The enrolled student of the example gets a 500 for their class list
      from the code as written, and their one class from the intended lookup. */
  lemma EnrolledStudentListRefusedAsWritten()
    ensures SchemaValid(EnrolledStudentExample())
    ensures GetAllClassesAsWritten(EnrolledStudentExample(), Claims(2, "sam", STUDENT)) == ServerError
    ensures GetAllClasses(EnrolledStudentExample(), Claims(2, "sam", STUDENT))
      == Ok(Enrolled({ClassService.ClassWithTeacher(1, ClassRow("Algebra", "", 1), "Tina Teach")}))
  {
    var t := EnrolledStudentExample();
    assert UserLinked(t.students, 2) by {
      assert 1 in t.students && t.students[1].userId == Some(2);
    }
    assert EnrolledIn(t, 2, 1) by {
      assert 1 in t.students && t.students[1].userId == Some(2) && Enrollment(1, 1) in t.enrollments;
    }
    var r := GetAllClasses(t, Claims(2, "sam", STUDENT));
    var v := ClassService.ClassWithTeacher(1, ClassRow("Algebra", "", 1), "Tina Teach");
    assert v in r.body.enrolled;
    assert forall w | w in r.body.enrolled :: w == v;
    assert r.body.enrolled == {v};
  }
}

=== FILE: class_service.dfy ===
/** Inserts, updates, deletes and join queries on the `classes` table. */
module ClassService {
  import opened Wrappers
  import opened Database

  /** A class joined with its teacher's full name (`c.*, u.full_name as teacher_name`). */
  datatype ClassWithTeacher = ClassWithTeacher(id: Id, row: ClassRow, teacherName: string)

  /** A class with its enrollment count (`c.*, COUNT(ce.student_id) as student_count`). */
  datatype ClassWithCount = ClassWithCount(id: Id, row: ClassRow, studentCount: nat)

  /** A class with both its teacher's name and its enrollment count. */
  datatype ClassListing = ClassListing(id: Id, row: ClassRow, teacherName: string, studentCount: nat)

  /** The enrollments that name class `classId`. */
  function EnrollmentsOf(t: Tables, classId: Id): set<Enrollment> {
    set e | e in t.enrollments && e.classId == classId
  }

  /** `COUNT(ce.student_id)` over `LEFT JOIN class_enrollments ce ON c.id = ce.class_id`. */
  function EnrollmentCount(t: Tables, classId: Id): nat {
    |EnrollmentsOf(t, classId)|
  }

  /** `INSERT INTO classes`: with foreign keys enforced the teacher must
      exist; otherwise the row always goes in under a fresh id. */
  method CreateClass(db: Store, c: ClassRow) returns (r: Result<Id, Violation>)
    requires db.Valid()
    modifies db
    ensures db.Valid()
    ensures r.Rejected? <==> db.foreignKeys && c.teacherId !in old(db.users)
    ensures r.Rejected? ==> unchanged(db)
    ensures r.Resolved? ==> r.value !in old(db.classes) && db.classes == old(db.classes)[r.value := c]
    ensures db.users == old(db.users) && db.students == old(db.students) && db.enrollments == old(db.enrollments)
  {
    if db.foreignKeys && c.teacherId !in db.users {
      return Rejected(ForeignKey);
    }
    r := Resolved(db.nextClassId);
    db.classes := db.classes[db.nextClassId := c];
    db.nextClassId := db.nextClassId + 1;
  }

  /** `UPDATE classes SET name = ?, description = ? WHERE id = ?`: resolves
      whether a row changed; the teacher is never touched. */
  method UpdateClass(db: Store, id: Id, name: string, description: string) returns (updated: bool)
    requires db.Valid()
    modifies db
    ensures db.Valid()
    ensures updated <==> id in old(db.classes)
    ensures updated ==> db.classes == old(db.classes)[id := ClassRow(name, description, old(db.classes)[id].teacherId)]
    ensures !updated ==> unchanged(db)
    ensures db.users == old(db.users) && db.students == old(db.students) && db.enrollments == old(db.enrollments)
  {
    updated := id in db.classes;
    if updated {
      db.classes := db.classes[id := ClassRow(name, description, db.classes[id].teacherId)];
    }
  }

  /** `DELETE FROM classes WHERE id = ?`: resolves whether a row went. The
      declared cascade removes the class's enrollments only when foreign
      keys are enforced; otherwise they stay behind. */
  method DeleteClass(db: Store, id: Id) returns (deleted: bool)
    requires db.Valid()
    modifies db
    ensures db.Valid()
    ensures deleted <==> id in old(db.classes)
    ensures deleted && db.foreignKeys ==> db.Snapshot() == DeleteClassCascade(old(db.Snapshot()), id)
    ensures deleted && !db.foreignKeys ==> db.Snapshot() == old(db.Snapshot()).(classes := old(db.classes) - {id})
    ensures !deleted ==> unchanged(db)
  {
    deleted := id in db.classes;
    if deleted {
      var after := if db.foreignKeys then DeleteClassCascade(db.Snapshot(), id) else db.Snapshot().(classes := db.classes - {id});
      db.classes, db.enrollments := after.classes, after.enrollments;
    }
  }

  /** `getClassById`: the class joined with its teacher; the inner join
      drops a class whose teacher row is missing. */
  function GetClassById(t: Tables, id: Id): (r: Option<ClassWithTeacher>)
    ensures r.Some? <==> id in t.classes && t.classes[id].teacherId in t.users
    ensures r.Some? ==> r.value == ClassWithTeacher(id, t.classes[id], t.users[t.classes[id].teacherId].fullName)
  {
    if id in t.classes && t.classes[id].teacherId in t.users then
      Some(ClassWithTeacher(id, t.classes[id], t.users[t.classes[id].teacherId].fullName))
    else
      None
  }

  /** `getTeacherClasses`: one row per class taught by `teacherId`, with its count. */
  function GetTeacherClasses(t: Tables, teacherId: Id): (r: set<ClassWithCount>)
    ensures forall v | v in r ::
      v.id in t.classes && v.row == t.classes[v.id] && v.row.teacherId == teacherId && v.studentCount == EnrollmentCount(t, v.id)
    ensures forall id | id in t.classes && t.classes[id].teacherId == teacherId ::
      ClassWithCount(id, t.classes[id], EnrollmentCount(t, id)) in r
  {
    set id | id in t.classes && t.classes[id].teacherId == teacherId :: ClassWithCount(id, t.classes[id], EnrollmentCount(t, id))
  }

  /** `getAllClasses`: one row per class whose teacher exists, with the
      teacher's name and the class's count. */
  function GetAllClasses(t: Tables): (r: set<ClassListing>)
    ensures forall v | v in r ::
      && v.id in t.classes && v.row == t.classes[v.id] && v.row.teacherId in t.users
      && v.teacherName == t.users[v.row.teacherId].fullName && v.studentCount == EnrollmentCount(t, v.id)
    ensures forall id | id in t.classes && t.classes[id].teacherId in t.users ::
      ClassListing(id, t.classes[id], t.users[t.classes[id].teacherId].fullName, EnrollmentCount(t, id)) in r
  {
    set id | id in t.classes && t.classes[id].teacherId in t.users ::
      ClassListing(id, t.classes[id], t.users[t.classes[id].teacherId].fullName, EnrollmentCount(t, id))
  }
}

=== FILE: database.dfy ===
/** The relational store `initializeDatabase` creates: four tables, the
    constraints SQLite enforces on them (NOT NULL, UNIQUE, CHECK), the
    foreign keys and ON DELETE CASCADE rules the schema declares, and the
    `Store` object every service reads and writes. */
module Database {
  import opened Wrappers

  /** Row ids. AUTOINCREMENT hands out 1, 2, 3, ... and never reuses one. */
  type Id = nat

  const TEACHER: string := "teacher"
  const STUDENT: string := "student"

  /** The CHECK constraint on `users.role`. */
  predicate IsRole(role: string) {
    role == TEACHER || role == STUDENT
  }

  /** A `users` row (the password column holds a bcrypt hash). */
  datatype User = User(username: string, password: string, email: string, fullName: string, role: string)

  /** A `classes` row. */
  datatype ClassRow = ClassRow(name: string, description: string, teacherId: Id)

  /** A `students` row; `user_id` may be NULL. */
  datatype StudentRow = StudentRow(firstName: string, lastName: string, email: string, userId: Option<Id>)

  /** A `class_enrollments` row, identified by its (student_id, class_id) pair. */
  datatype Enrollment = Enrollment(studentId: Id, classId: Id)

  /** The contents of the four tables. Enrollments form a set, so the
      UNIQUE(student_id, class_id) constraint holds by construction. */
  datatype Tables = Tables(
    users: map<Id, User>,
    classes: map<Id, ClassRow>,
    students: map<Id, StudentRow>,
    enrollments: set<Enrollment>)

  /** The constraint a rejected statement violated. */
  datatype Violation = RoleCheck | UniqueUsername | UniqueEmail | UniqueStudentUser | UniqueEnrollment | ForeignKey

  predicate UsernameTaken(users: map<Id, User>, username: string) {
    exists id :: id in users && users[id].username == username
  }

  predicate EmailTaken(users: map<Id, User>, email: string) {
    exists id :: id in users && users[id].email == email
  }

  /** Some student row already carries this `user_id`. */
  predicate UserLinked(students: map<Id, StudentRow>, userId: Id) {
    exists id :: id in students && students[id].userId == Some(userId)
  }

  /** The constraints SQLite enforces whatever the foreign-key setting. */
  predicate SchemaValid(t: Tables) {
    && (forall id | id in t.users :: IsRole(t.users[id].role))
    && (forall a, b | a in t.users && b in t.users && t.users[a].username == t.users[b].username :: a == b)
    && (forall a, b | a in t.users && b in t.users && t.users[a].email == t.users[b].email :: a == b)
    && (forall a, b | a in t.students && b in t.students && t.students[a].userId.Some? && t.students[a].userId == t.students[b].userId :: a == b)
  }

  /** The declared foreign keys: every reference names an existing row. */
  predicate ReferencesResolve(t: Tables) {
    && (forall c | c in t.classes :: t.classes[c].teacherId in t.users)
    && (forall s | s in t.students && t.students[s].userId.Some? :: t.students[s].userId.value in t.users)
    && (forall e | e in t.enrollments :: e.studentId in t.students && e.classId in t.classes)
  }

  /** Deleting class `id` under ON DELETE CASCADE: its enrollments go with it. */
  function DeleteClassCascade(t: Tables, id: Id): (r: Tables)
    ensures id !in r.classes
    ensures forall e | e in r.enrollments :: e.classId != id
    ensures forall c | c in t.classes && c != id :: c in r.classes && r.classes[c] == t.classes[c]
    ensures forall e | e in t.enrollments && e.classId != id :: e in r.enrollments
    ensures r.users == t.users && r.students == t.students && r.enrollments <= t.enrollments
    ensures r.classes.Keys <= t.classes.Keys
    ensures SchemaValid(t) ==> SchemaValid(r)
    ensures ReferencesResolve(t) ==> ReferencesResolve(r)
  {
    t.(classes := t.classes - {id}, enrollments := set e | e in t.enrollments && e.classId != id)
  }

  /** Deleting student `id` under ON DELETE CASCADE: its enrollments go with it. */
  function DeleteStudentCascade(t: Tables, id: Id): (r: Tables)
    ensures id !in r.students
    ensures forall e | e in r.enrollments :: e.studentId != id
    ensures forall s | s in t.students && s != id :: s in r.students && r.students[s] == t.students[s]
    ensures forall e | e in t.enrollments && e.studentId != id :: e in r.enrollments
    ensures r.users == t.users && r.classes == t.classes && r.enrollments <= t.enrollments
    ensures r.students.Keys <= t.students.Keys
    ensures SchemaValid(t) ==> SchemaValid(r)
    ensures ReferencesResolve(t) ==> ReferencesResolve(r)
  {
    t.(students := t.students - {id}, enrollments := set e | e in t.enrollments && e.studentId != id)
  }

  /** Deleting user `id` under ON DELETE CASCADE: the classes they teach and
      the student row linked to them go, and with those, every enrollment
      that names one of them. */
  function DeleteUserCascade(t: Tables, id: Id): (r: Tables)
    ensures id !in r.users
    ensures forall c | c in r.classes :: r.classes[c].teacherId != id
    ensures forall s | s in r.students :: r.students[s].userId != Some(id)
    ensures forall u | u in t.users && u != id :: u in r.users && r.users[u] == t.users[u]
    ensures forall c | c in t.classes && t.classes[c].teacherId != id :: c in r.classes && r.classes[c] == t.classes[c]
    ensures forall s | s in t.students && t.students[s].userId != Some(id) :: s in r.students && r.students[s] == t.students[s]
    ensures forall e :: e in r.enrollments <==>
      && e in t.enrollments
      && !(e.classId in t.classes && t.classes[e.classId].teacherId == id)
      && !(e.studentId in t.students && t.students[e.studentId].userId == Some(id))
    ensures r.users.Keys <= t.users.Keys && r.classes.Keys <= t.classes.Keys && r.students.Keys <= t.students.Keys
    ensures SchemaValid(t) ==> SchemaValid(r)
    ensures ReferencesResolve(t) ==> ReferencesResolve(r)
  {
    var taught := set c | c in t.classes && t.classes[c].teacherId == id;
    var linked := set s | s in t.students && t.students[s].userId == Some(id);
    Tables(
      t.users - {id},
      t.classes - taught,
      t.students - linked,
      set e | e in t.enrollments && e.classId !in taught && e.studentId !in linked)
  }

  /** Without the cascade (foreign keys not enforced), deleting a teacher who
      owns a class leaves that class pointing at a missing user. */
  lemma DeleteUserWithoutCascadeDangles(t: Tables, id: Id, c: Id)
    requires c in t.classes && t.classes[c].teacherId == id
    ensures !ReferencesResolve(t.(users := t.users - {id}))
  {
    var r := t.(users := t.users - {id});
    assert c in r.classes && r.classes[c].teacherId !in r.users;
  }

  /** The database connection: the four tables, updated in place by the
      services, plus the AUTOINCREMENT counters that hand out fresh ids. */
  class Store {
    var users: map<Id, User>
    var classes: map<Id, ClassRow>
    var students: map<Id, StudentRow>
    var enrollments: set<Enrollment>

    /** The next id each table's AUTOINCREMENT sequence hands out. */
    var nextUserId: Id
    var nextClassId: Id
    var nextStudentId: Id
    var nextEnrollmentId: Id

    /** Whether SQLite enforces the declared foreign keys and cascades
        (PRAGMA foreign_keys). `initializeDatabase` never turns it on, so
        the running system is a store built with `false`. */
    const foreignKeys: bool

    function Snapshot(): Tables
      reads this
    {
      Tables(users, classes, students, enrollments)
    }

    ghost predicate Valid()
      reads this
    {
      && SchemaValid(Snapshot())
      && (foreignKeys ==> ReferencesResolve(Snapshot()))
      && (forall id | id in users :: 0 < id < nextUserId)
      && (forall id | id in classes :: 0 < id < nextClassId)
      && (forall id | id in students :: 0 < id < nextStudentId)
      && 0 < nextUserId && 0 < nextClassId && 0 < nextStudentId && 0 < nextEnrollmentId
    }

    constructor (foreignKeys: bool)
      ensures Valid()
      ensures Snapshot() == Tables(map[], map[], map[], {})
      ensures this.foreignKeys == foreignKeys
    {
      users, classes, students, enrollments := map[], map[], map[], {};
      nextUserId, nextClassId, nextStudentId, nextEnrollmentId := 1, 1, 1, 1;
      this.foreignKeys := foreignKeys;
    }
  }
}

=== FILE: enrollment_service.dfy ===
/** Inserts, deletes and roster queries on the `class_enrollments` table. */
module EnrollmentService {
  import opened Wrappers
  import opened Database
  import opened ClassService

  /** A student as `getClassStudents` selects it: id, names and email. */
  datatype StudentView = StudentView(id: Id, firstName: string, lastName: string, email: string)

  /** `INSERT INTO class_enrollments`: rejected when the pair is already
      there (UNIQUE), or, with foreign keys enforced, when the student or the
      class is missing; otherwise resolves a fresh enrollment id. */
  method EnrollStudent(db: Store, studentId: Id, classId: Id) returns (r: Result<Id, Violation>)
    requires db.Valid()
    modifies db
    ensures db.Valid()
    ensures r.Rejected? <==>
      || Enrollment(studentId, classId) in old(db.enrollments)
      || (db.foreignKeys && (studentId !in old(db.students) || classId !in old(db.classes)))
    ensures r.Rejected? ==> unchanged(db)
    ensures r.Resolved? ==> db.enrollments == old(db.enrollments) + {Enrollment(studentId, classId)}
    ensures db.users == old(db.users) && db.classes == old(db.classes) && db.students == old(db.students)
  {
    var e := Enrollment(studentId, classId);
    if e in db.enrollments {
      return Rejected(UniqueEnrollment);
    }
    if db.foreignKeys && (studentId !in db.students || classId !in db.classes) {
      return Rejected(ForeignKey);
    }
    r := Resolved(db.nextEnrollmentId);
    db.enrollments := db.enrollments + {e};
    db.nextEnrollmentId := db.nextEnrollmentId + 1;
  }

  /** `DELETE FROM class_enrollments WHERE student_id = ? AND class_id = ?`:
      resolves whether a row went. */
  method UnenrollStudent(db: Store, studentId: Id, classId: Id) returns (removed: bool)
    requires db.Valid()
    modifies db
    ensures db.Valid()
    ensures removed <==> Enrollment(studentId, classId) in old(db.enrollments)
    ensures db.enrollments == old(db.enrollments) - {Enrollment(studentId, classId)}
    ensures !removed ==> unchanged(db)
    ensures db.users == old(db.users) && db.classes == old(db.classes) && db.students == old(db.students)
  {
    var e := Enrollment(studentId, classId);
    removed := e in db.enrollments;
    if removed {
      db.enrollments := db.enrollments - {e};
    }
  }

  /** Enrolling a pair that is not there and then unenrolling it leaves the
      enrollments, and so every roster, as they were. */
  method EnrollThenUnenroll(db: Store, studentId: Id, classId: Id) returns (enrolled: bool, removed: bool)
    requires db.Valid()
    requires Enrollment(studentId, classId) !in db.enrollments
    modifies db
    ensures db.Valid()
    ensures enrolled == removed
    ensures db.Snapshot() == old(db.Snapshot())
  {
    var r := EnrollStudent(db, studentId, classId);
    enrolled := r.Resolved?;
    removed := UnenrollStudent(db, studentId, classId);
  }

  /** A second unenroll of the same pair reports nothing removed and changes nothing. */
  method UnenrollTwice(db: Store, studentId: Id, classId: Id) returns (first: bool, second: bool)
    requires db.Valid()
    modifies db
    ensures db.Valid()
    ensures first <==> Enrollment(studentId, classId) in old(db.enrollments)
    ensures !second
    ensures db.Snapshot() == old(db.Snapshot()).(enrollments := old(db.enrollments) - {Enrollment(studentId, classId)})
  {
    first := UnenrollStudent(db, studentId, classId);
    ghost var between := db.Snapshot();
    second := UnenrollStudent(db, studentId, classId);
    assert db.Snapshot() == between;
  }

  /** `getStudentClasses`: the classes the student is enrolled in, each
      joined with its teacher (a class whose teacher is missing drops out). */
  function GetStudentClasses(t: Tables, studentId: Id): (r: set<ClassWithTeacher>)
    ensures forall v | v in r ::
      && Enrollment(studentId, v.id) in t.enrollments
      && v.id in t.classes && v.row == t.classes[v.id] && v.row.teacherId in t.users
      && v.teacherName == t.users[v.row.teacherId].fullName
    ensures forall c | Enrollment(studentId, c) in t.enrollments && c in t.classes && t.classes[c].teacherId in t.users ::
      ClassWithTeacher(c, t.classes[c], t.users[t.classes[c].teacherId].fullName) in r
  {
    set e | e in t.enrollments && e.studentId == studentId && e.classId in t.classes && t.classes[e.classId].teacherId in t.users ::
      ClassWithTeacher(e.classId, t.classes[e.classId], t.users[t.classes[e.classId].teacherId].fullName)
  }

  /** `getClassStudents`: the students enrolled in the class (an enrollment
      whose student row is missing drops out of the join). */
  function GetClassStudents(t: Tables, classId: Id): (r: set<StudentView>)
    ensures forall v | v in r ::
      && Enrollment(v.id, classId) in t.enrollments && v.id in t.students
      && v == StudentView(v.id, t.students[v.id].firstName, t.students[v.id].lastName, t.students[v.id].email)
    ensures forall s | Enrollment(s, classId) in t.enrollments && s in t.students ::
      StudentView(s, t.students[s].firstName, t.students[s].lastName, t.students[s].email) in r
  {
    set e | e in t.enrollments && e.classId == classId && e.studentId in t.students ::
      var s := t.students[e.studentId]; StudentView(e.studentId, s.firstName, s.lastName, s.email)
  }

  /** Enrolling a new pair raises that class's `student_count` by one and
      leaves every other class's count alone. */
  lemma EnrollRaisesCount(t: Tables, e: Enrollment, c: Id)
    requires e !in t.enrollments
    ensures EnrollmentCount(t.(enrollments := t.enrollments + {e}), c)
      == if c == e.classId then EnrollmentCount(t, c) + 1 else EnrollmentCount(t, c)
  {
    var t' := t.(enrollments := t.enrollments + {e});
    if c == e.classId {
      assert EnrollmentsOf(t', c) == EnrollmentsOf(t, c) + {e};
    } else {
      assert EnrollmentsOf(t', c) == EnrollmentsOf(t, c);
    }
  }

  /** Unenrolling a present pair lowers that class's `student_count` by one
      and leaves every other class's count alone. */
  lemma UnenrollLowersCount(t: Tables, e: Enrollment, c: Id)
    requires e in t.enrollments
    ensures EnrollmentCount(t.(enrollments := t.enrollments - {e}), c)
      == if c == e.classId then EnrollmentCount(t, c) - 1 else EnrollmentCount(t, c)
  {
    var t' := t.(enrollments := t.enrollments - {e});
    if c == e.classId {
      assert EnrollmentsOf(t', c) == EnrollmentsOf(t, c) - {e};
    } else {
      assert EnrollmentsOf(t', c) == EnrollmentsOf(t, c);
    }
  }
}

=== FILE: http.dfy ===
/** What a request handler sees of the request and what it answers with. */
module Http {
  import opened Wrappers
  import opened Database

  /** `req.user`: the claims of the caller's verified token. */
  datatype Claims = Claims(id: Id, username: string, role: string)

  /** The status a handler sends, with the JSON body or message that goes with it. */
  datatype Status<T> =
    | Ok(body: T)              // 200
    | Created(body: T)         // 201
    | BadRequest(message: string)
    | NotFound(message: string)
    | Forbidden(message: string)
    | ServerError              // 500 from the catch block

  /** A body field JavaScript treats as true: present and not the empty string. */
  predicate Truthy(field: Option<string>) {
    field.Some? && field.value != ""
  }

  /** `field || fallback`. */
  function OrElse(field: Option<string>, fallback: string): string {
    if Truthy(field) then field.value else fallback
  }
}

=== FILE: scenarios.dfy ===
/** Request sequences on a fresh store, with what the handlers'
    contracts let a client conclude about them. */
module Scenarios {
  import opened Wrappers
  import opened Database
  import opened Http
  import opened UserService
  import opened AuthController
  import ClassService
  import ClassController

  /** A stand-in for bcrypt that a `matches` function can check. */
  function Hashed(password: string): string {
    "hash:" + password
  }

  function HashMatches(password: string, hash: string): bool {
    hash == Hashed(password)
  }

  /** A teacher registers; a second registration under the same username is
      refused, and the first account still logs in with its password. */
  method DuplicateUsername() returns (again: Status<Registered>, login: Status<LoggedIn>)
    ensures again == BadRequest("Username already exists")
    ensures login.Ok? && login.body.user.username == "t1" && login.body.token.role == TEACHER
  {
    var db := new Store(false);
    var req := RegisterRequest(Some("t1"), Some("pw123456"), Some("t1@example.org"), Some("Tina Teach"), Some(TEACHER));
    var registered := Register(db, req, Hashed("pw123456"));
    assert !UsernameTaken(map[], "t1") && !EmailTaken(map[], "t1@example.org");
    var id := registered.body.userId;
    assert db.users == map[id := User("t1", Hashed("pw123456"), "t1@example.org", "Tina Teach", TEACHER)];

    again := Register(db, req.(email := Some("other@example.org")), Hashed("secret"));
    assert db.users[id].username == "t1";
    login := Login(db.Snapshot(), Some("t1"), Some("pw123456"), HashMatches);
    assert HashMatches("pw123456", db.users[id].password);
  }

  /** A teacher registers and creates "Algebra"; listing their classes then
      gives exactly that class, with no students. */
  method FirstClass() returns (classes: Status<ClassController.ClassList>)
    ensures classes.Ok? && classes.body.Owned? && |classes.body.owned| == 1
    ensures forall v | v in classes.body.owned :: v.row.name == "Algebra" && v.studentCount == 0
  {
    var db := new Store(false);
    var req := RegisterRequest(Some("t1"), Some("pw123456"), Some("t1@example.org"), Some("Tina Teach"), Some(TEACHER));
    var registered := Register(db, req, Hashed("pw123456"));
    assert !UsernameTaken(map[], "t1") && !EmailTaken(map[], "t1@example.org");
    var teacher := registered.body.token;
    assert db.classes == map[] && db.enrollments == {};

    var created := ClassController.CreateClass(db, teacher, Some("Algebra"), None);
    var t := db.Snapshot();
    assert t.classes == map[created.body := ClassRow("Algebra", "", teacher.id)] && t.enrollments == {};
    classes := ClassController.GetAllClasses(t, teacher);
    var only := ClassService.ClassWithCount(created.body, ClassRow("Algebra", "", teacher.id), 0);
    assert ClassService.EnrollmentsOf(t, created.body) == {};
    assert only in classes.body.owned;
    assert classes.body.owned == {only};
  }
}

=== FILE: user_service.dfy ===
/** Lookups and inserts on the `users` and `students` tables. */
module UserService {
  import opened Wrappers
  import opened Database

  /** A user without the password column, as `findUserById` selects it and
      as the auth responses return it. */
  datatype PublicUser = PublicUser(id: Id, username: string, email: string, fullName: string, role: string)

  function Public(id: Id, u: User): PublicUser {
    PublicUser(id, u.username, u.email, u.fullName, u.role)
  }

  /** `SELECT * FROM users WHERE username = ?`: the one user with that name. */
  function FindUserByUsername(t: Tables, username: string): (r: Option<Id>)
    requires SchemaValid(t)
    ensures r.Some? ==> r.value in t.users && t.users[r.value].username == username
    ensures forall id | id in t.users && t.users[id].username == username :: r == Some(id)
  {
    if UsernameTaken(t.users, username) then
      var id :| id in t.users && t.users[id].username == username; Some(id)
    else
      None
  }

  /** `SELECT * FROM users WHERE email = ?`: the one user with that email. */
  function FindUserByEmail(t: Tables, email: string): (r: Option<Id>)
    requires SchemaValid(t)
    ensures r.Some? ==> r.value in t.users && t.users[r.value].email == email
    ensures forall id | id in t.users && t.users[id].email == email :: r == Some(id)
  {
    if EmailTaken(t.users, email) then
      var id :| id in t.users && t.users[id].email == email; Some(id)
    else
      None
  }

  /** `SELECT id, username, email, full_name, role ... WHERE id = ?`. */
  function FindUserById(t: Tables, id: Id): (r: Option<PublicUser>)
    ensures r.Some? <==> id in t.users
    ensures r.Some? ==> r.value == Public(id, t.users[id])
  {
    if id in t.users then Some(Public(id, t.users[id])) else None
  }

  /** `INSERT INTO users`: rejected by the CHECK on role or the UNIQUE
      constraints on username and email, otherwise a row under a fresh id. */
  method CreateUser(db: Store, u: User) returns (r: Result<Id, Violation>)
    requires db.Valid()
    modifies db
    ensures db.Valid()
    ensures r.Rejected? <==> !IsRole(u.role) || UsernameTaken(old(db.users), u.username) || EmailTaken(old(db.users), u.email)
    ensures r.Rejected? ==> unchanged(db)
    ensures r.Resolved? ==> r.value !in old(db.users) && db.users == old(db.users)[r.value := u]
    ensures db.classes == old(db.classes) && db.students == old(db.students) && db.enrollments == old(db.enrollments)
  {
    if !IsRole(u.role) {
      return Rejected(RoleCheck);
    }
    if UsernameTaken(db.users, u.username) {
      return Rejected(UniqueUsername);
    }
    if EmailTaken(db.users, u.email) {
      return Rejected(UniqueEmail);
    }
    r := Resolved(db.nextUserId);
    db.users := db.users[db.nextUserId := u];
    db.nextUserId := db.nextUserId + 1;
  }

  /** The fields of an `updateUser` argument; `None` is `undefined`. */
  datatype UserPatch = UserPatch(
    username: Option<string>,
    password: Option<string>,
    email: Option<string>,
    fullName: Option<string>,
    role: Option<string>)

  /** The SET list `updateUser` builds: the columns whose value is defined. */
  function DefinedFields(p: UserPatch): (r: seq<string>)
    ensures |r| == 0 <==> p == UserPatch(None, None, None, None, None)
    ensures "username" in r <==> p.username.Some?
    ensures "password" in r <==> p.password.Some?
    ensures "email" in r <==> p.email.Some?
    ensures "full_name" in r <==> p.fullName.Some?
    ensures "role" in r <==> p.role.Some?
  {
    (if p.username.Some? then ["username"] else [])
    + (if p.password.Some? then ["password"] else [])
    + (if p.email.Some? then ["email"] else [])
    + (if p.fullName.Some? then ["full_name"] else [])
    + (if p.role.Some? then ["role"] else [])
  }

  function Or(o: Option<string>, current: string): string {
    if o.Some? then o.value else current
  }

  /** The row after `UPDATE users SET <defined fields>`. */
  function ApplyPatch(u: User, p: UserPatch): User {
    User(Or(p.username, u.username), Or(p.password, u.password), Or(p.email, u.email),
         Or(p.fullName, u.fullName), Or(p.role, u.role))
  }

  /** A patch sets exactly its defined fields: applying it twice is applying it once,
      and the empty patch changes nothing. */
  lemma ApplyPatchSetsDefinedFields(u: User, p: UserPatch)
    ensures ApplyPatch(ApplyPatch(u, p), p) == ApplyPatch(u, p)
    ensures |DefinedFields(p)| == 0 ==> ApplyPatch(u, p) == u
    ensures p.username.None? ==> ApplyPatch(u, p).username == u.username
    ensures p.password.None? ==> ApplyPatch(u, p).password == u.password
    ensures p.email.None? ==> ApplyPatch(u, p).email == u.email
    ensures p.fullName.None? ==> ApplyPatch(u, p).fullName == u.fullName
    ensures p.role.None? ==> ApplyPatch(u, p).role == u.role
    ensures p.username.Some? ==> ApplyPatch(u, p).username == p.username.value
    ensures p.password.Some? ==> ApplyPatch(u, p).password == p.password.value
    ensures p.email.Some? ==> ApplyPatch(u, p).email == p.email.value
    ensures p.fullName.Some? ==> ApplyPatch(u, p).fullName == p.fullName.value
    ensures p.role.Some? ==> ApplyPatch(u, p).role == p.role.value
  {
  }

  /** The patched row of user `id` would break the CHECK on role or a UNIQUE constraint. */
  predicate PatchViolates(users: map<Id, User>, id: Id, p: UserPatch)
    requires id in users
  {
    var v := ApplyPatch(users[id], p);
    || !IsRole(v.role)
    || (exists k :: k in users && k != id && users[k].username == v.username)
    || (exists k :: k in users && k != id && users[k].email == v.email)
  }

  /** `updateUser`: nothing to set resolves false; otherwise an UPDATE of row
      `id` that resolves whether the row existed. */
  method UpdateUser(db: Store, id: Id, p: UserPatch) returns (r: Result<bool, Violation>)
    requires db.Valid()
    modifies db
    ensures db.Valid()
    ensures |DefinedFields(p)| == 0 ==> r == Resolved(false)
    ensures r == Resolved(true) <==> |DefinedFields(p)| > 0 && id in old(db.users) && !PatchViolates(old(db.users), id, p)
    ensures r.Rejected? <==> |DefinedFields(p)| > 0 && id in old(db.users) && PatchViolates(old(db.users), id, p)
    ensures r == Resolved(true) ==> db.users == old(db.users)[id := ApplyPatch(old(db.users)[id], p)]
    ensures r != Resolved(true) ==> unchanged(db)
    ensures db.classes == old(db.classes) && db.students == old(db.students) && db.enrollments == old(db.enrollments)
  {
    if |DefinedFields(p)| == 0 {
      return Resolved(false);
    }
    if id !in db.users {
      return Resolved(false);
    }
    var v := ApplyPatch(db.users[id], p);
    if !IsRole(v.role) {
      return Rejected(RoleCheck);
    }
    if exists k :: k in db.users && k != id && db.users[k].username == v.username {
      return Rejected(UniqueUsername);
    }
    if exists k :: k in db.users && k != id && db.users[k].email == v.email {
      return Rejected(UniqueEmail);
    }
    db.users := db.users[id := v];
    r := Resolved(true);
  }

  /** `INSERT INTO students`: rejected when the `user_id` is already linked
      (UNIQUE), or, with foreign keys enforced, when it names no user. */
  method CreateStudent(db: Store, s: StudentRow) returns (r: Result<Id, Violation>)
    requires db.Valid()
    modifies db
    ensures db.Valid()
    ensures r.Rejected? <==>
      (s.userId.Some? && (UserLinked(old(db.students), s.userId.value) || (db.foreignKeys && s.userId.value !in old(db.users))))
    ensures r.Rejected? ==> unchanged(db)
    ensures r.Resolved? ==> r.value !in old(db.students) && db.students == old(db.students)[r.value := s]
    ensures db.users == old(db.users) && db.classes == old(db.classes) && db.enrollments == old(db.enrollments)
  {
    if s.userId.Some? && UserLinked(db.students, s.userId.value) {
      return Rejected(UniqueStudentUser);
    }
    if db.foreignKeys && s.userId.Some? && s.userId.value !in db.users {
      return Rejected(ForeignKey);
    }
    r := Resolved(db.nextStudentId);
    db.students := db.students[db.nextStudentId := s];
    db.nextStudentId := db.nextStudentId + 1;
  }

  /** `SELECT * FROM students WHERE id = ?`. */
  function FindStudentById(t: Tables, id: Id): (r: Option<StudentRow>)
    ensures r.Some? <==> id in t.students
    ensures r.Some? ==> r.value == t.students[id]
  {
    if id in t.students then Some(t.students[id]) else None
  }

  /** The student row linked to user `userId`, unique by UNIQUE(user_id).
      The controllers call this as `findStudentByUserId`. */
  function FindStudentByUserId(t: Tables, userId: Id): (r: Option<Id>)
    requires SchemaValid(t)
    ensures r.Some? ==> r.value in t.students && t.students[r.value].userId == Some(userId)
    ensures forall s | s in t.students && t.students[s].userId == Some(userId) :: r == Some(s)
  {
    if UserLinked(t.students, userId) then
      var s :| s in t.students && t.students[s].userId == Some(userId); Some(s)
    else
      None
  }
}

=== FILE: wrappers.dfy ===
/** The value-or-nothing and value-or-error shapes the services' promises take:
    a row or `null`, a result or a rejected promise. */
module Wrappers {

  /** A row that may be missing (`row || null`). */
  datatype Option<T> = None | Some(value: T)

  /** A settled promise: resolved with a value, or rejected with an error. */
  datatype Result<T, E> = Resolved(value: T) | Rejected(error: E)
}
